=== FILE: README.md ===
# Bedrock model router — Dafny model

A model of the request-routing core of the `lambda_function.py` action-group
handler. The handler receives an event carrying a model id and a prompt. It
checks the image bucket for a stored conditioning image. It picks one of five
invocation shapes from the model id:

- Claude 3 text;
- Claude 3 multimodal;
- Stability diffusion;
- Titan image;
- a generic LangChain completion with per-provider default parameters.

It then builds the request body, reads the reply, stores generated images under
a time-stamped key, and wraps the result in the action-group response envelope.

Every piece is a pure function over immutable datatypes:

| file | module | models |
|---|---|---|
| `results.dfy` | `Results` | `Option` / `Result` |
| `assoc.dfy` | `Assoc` | first-match lookup in a `(name, value)` list (`get_named_parameter`) |
| `json.dfy` | `JsonValues` | JSON values, path lookup, Python truthiness and `dict.get` |
| `text.dfy` | `Text` | the provider prefix (`split('.')[0]`), decimal rendering of timestamps |
| `storage.dfy` | `Storage` | bucket constants, the `head_object` classification, generated keys |
| `profiles.dfy` | `Profiles` | `get_inference_parameters` |
| `requests.dfy` | `Requests` | the four fixed request bodies |
| `replies.dfy` | `Replies` | reading Claude, Stability and Titan replies |
| `dispatch.dfy` | `Dispatch` | `get_text_response` |
| `handler.dfy` | `Handler` | parameter reading and the response envelope of `lambda_handler` |
| `scenarios.dfy` | `Scenarios` | whole-request examples |

The outside world is one input record, `Dispatch.World`. It holds:

- what `head_object` did, and whether `download_fileobj` raised;
- the stored image as base64 text;
- what the model call returned;
- whether a returned image decodes as base64, and whether the imaging
  library can open the decoded bytes (two separate steps in the source);
- whether `put_object` raised;
- the value of `int(time.time())`.

Python exceptions that escape the handler become `Err` values. The handler
then produces no envelope.

Within what it covers (see "## Left out"), the model follows the code as
written. That includes two paths that end in an exception rather than a reply:

- **Stability errors.** The Stability decoder returns an error *string* when
  the artifact list is missing or empty, or when the call fails. The caller
  passes that string to `save_image_to_s3`, and opening it as an image raises.
  The "No image data found in the response." message therefore never reaches
  the caller.
- **Titan errors.** The Titan decoder catches `ClientError` and `ImageError`
  and returns `None`. Saving `None` raises. A Titan reply with a non-null
  `error` field therefore fails the request. This holds as soon as the image
  text decodes as base64, because the `error` test (lines 93-96) comes before
  the image is opened (line 105).

`Dispatch.ImageNotSaved` models both cases. Decoded bytes that the imaging
library cannot open give `Dispatch.ImageUnopenable`. For Stability this
happens in the save step (line 359), and for Titan at line 105. A failing
`download_fileobj` or `put_object` gives `Dispatch.DownloadFailure` or
`Dispatch.PutFailure`.

Two further quirks are modelled deliberately:

- **Two different prefix tests.** The branch test uses
  `startswith('stability')`, but the parameter profile uses the text before
  the first `.`. These disagree on ids such as `stabilityai.sdxl`
  (`Dispatch.PrefixTestsDiffer`). Because of the branch order, the generic
  path can never receive the Stability or Titan-image profile
  (`Dispatch.GenericPathProfile`).
- **The Titan profile test.** The Titan-image test inside
  `get_inference_parameters` compares the handler's own `model_id`, not the
  function's argument. The only call passes `model_id`, so the model uses one
  identifier for both.

Unknown providers get the generic profile. The exact Titan image id gets its
own template (lines 283-298).

## Model

| member | source | states |
|---|---|---|
| Assoc.FirstIndex | lambda_function.py:21-22 | the position found is the first entry with the wanted name; every earlier entry has another name; "no entry" only when none matches |
| Assoc.Find | lambda_function.py:21-22 | `get_named_parameter`: the value of the first entry whose name matches; None exactly when no entry has that name (Python's `next` then raises) |
| Assoc.FindShadows | lambda_function.py:21-22 | a later entry with the same name never changes the result: the first match wins |
| Assoc.FindDistinct | lambda_function.py:21-22 | when names are distinct, the lookup yields `v` exactly when the entry `(name, v)` is in the list |
| Text.ProviderOf | lambda_function.py:224 | `split('.')[0]`: the result is a dot-free prefix of the id, followed by '.' unless it is the whole id |
| Text.ProviderUnique | lambda_function.py:224 | those three properties determine the provider uniquely |
| Text.ProviderOfJoin | lambda_function.py:224 | `vendor + "." + rest` has provider `vendor` for every dot-free vendor |
| Text.ProviderWhole | lambda_function.py:224 | an id is its own provider exactly when it contains no '.' |
| Text.Decimal | lambda_function.py:367 | `'{}'.format(n)` is a non-empty string of digits with no leading zero |
| Text.DecimalRoundTrip | lambda_function.py:367 | reading the digits back gives the timestamp |
| Text.DecimalInjective | lambda_function.py:385 | different timestamps render differently |
| Storage.ImagePresence | lambda_function.py:313-324 | absent only for error code "404"; present when the head succeeds; every other code is re-raised |
| Storage.GeneratedKey | lambda_function.py:367 | the key starts with `generated_images/image_` and ends with `.png`, with something between |
| Storage.GeneratedKeyRoundTrip | lambda_function.py:367 | a generated key parses back to the timestamp it was made from |
| Storage.GeneratedKeyInjective | lambda_function.py:385 | two saves in different seconds never share a key, and the same second always gives the same key |
| Profiles.FamilyOf | lambda_function.py:223-307 | each known provider, and only it, selects its profile; the Titan image id selects the template; every other id falls back to generic |
| Profiles.FamilyFor | lambda_function.py:226-299 | for a provider name: each known name, and only it, selects its family; an unknown name selects the Titan template exactly for the Titan id and the generic profile otherwise |
| Profiles.AmProviderUnknown | lambda_function.py:283 | an id beginning with "am", such as the Titan image id, has a provider with no profile of its own, so the Titan test is reached |
| Profiles.MistralProfile | lambda_function.py:229-234 | keys are exactly max_tokens, temperature, top_k, top_p; max_tokens 200, top_k 50 |
| Profiles.Ai21Profile | lambda_function.py:237-245 | exactly the seven AI21 keys; maxTokens 512; all three penalties have scale 0 |
| Profiles.CohereProfile | lambda_function.py:248-255 | exactly the six Cohere keys; max_tokens 512; return_likelihoods "NONE" |
| Profiles.MetaProfile | lambda_function.py:258-262 | exactly temperature, top_p, max_gen_len; temperature 0; max_gen_len 512 |
| Profiles.StabilityProfile | lambda_function.py:265-272 | exactly the six diffusion keys; cfg_scale 10; steps 50 |
| Profiles.AnthropicProfile | lambda_function.py:275-282 | exactly the six Claude-2 keys; max_tokens_to_sample 300; the one stop sequence "\n\nHuman:" |
| Profiles.TitanImageProfile | lambda_function.py:283-298 | a template with exactly taskType "TEXT_IMAGE", textToImageParams (text and negativeText hold the placeholder "string") and imageGenerationConfig, which is the settings object below |
| Profiles.TitanGenerationConfig | lambda_function.py:291-297 | exactly the five settings numberOfImages, height, width, cfgScale, seed; each is a Python type object: `float` for cfgScale, `int` for the other four |
| Profiles.GenericProfile | lambda_function.py:299-307 | exactly maxTokenCount 512, stopSequences [], temperature 0, topP 0.9 |
| Profiles.ProfileKeysByProvider | lambda_function.py:223-307 | the key set each id receives, decided by the text before its first '.' |
| Profiles.ProviderDecidesProfile | lambda_function.py:224 | ids with the same provider get the same parameters, whatever follows the '.' |
| Profiles.InferenceParameters | lambda_function.py:223-307 | the Titan image id gets the template; an id gets the generic profile if and only if its provider is unknown and it is not the Titan image id; no id is rejected (the per-provider key sets are in `ProfileKeysByProvider`) |
| Profiles.AmazonIdsAreGeneric | lambda_function.py:283 | among `amazon.` ids only the exact Titan image id gets the template; all others get the generic profile |
| Requests.StabilityBody | lambda_function.py:33-36 | exactly one text prompt equal to the input; cfg_scale 9; steps 50; no other keys |
| Requests.TitanBody | lambda_function.py:57-69 | taskType TEXT_IMAGE; the prompt as the text; 2 images of 1024x1024; cfgScale 8.0; seed 0 |
| Requests.ClaudeTextBody | lambda_function.py:139-150 | anthropic_version fixed; max_tokens 1024; exactly one message, from the user, whose only content part is the text part with the prompt |
| Requests.TextPart | lambda_function.py:146 | the text part has exactly type "text" and the prompt as its text |
| Requests.ImagePart | lambda_function.py:183-190 | the image part has type "image" and a source of type "base64", media type `image/png` and the stored image as data |
| Requests.ClaudeMultimodalBody | lambda_function.py:175-194 | anthropic_version fixed; max_tokens 2048; exactly one message, from the user, whose content is the text part with the prompt, then the image part of the stored image, and nothing else |
| Replies.ClaudeContent | lambda_function.py:153-163 | content is returned exactly when both token counts are present; `content` defaults to []; a ClientError is re-raised with its message |
| Replies.StabilityArtifact | lambda_function.py:37-54 | an image only from a first artifact carrying base64 text that decodes; a missing or empty list, or a first artifact without `base64`, gives "no image data"; a failed call gives a processing error |
| Replies.StabilityMessage | lambda_function.py:43-54 | the returned text is the no-image message exactly for the failed artifact check |
| Replies.TitanGenerate | lambda_function.py:86-117 | an image only when the first image decodes, opens and `error` is null or absent; a non-null `error` is an ImageError exactly when the first image decodes, whether or not it would open; bytes that do not open raise only when no error is reported; a ClientError is caught |
| Dispatch.FixedIdsDisjoint | lambda_function.py:344-372 | no Claude 3 id or Titan id starts with `stability`, and the Titan id is not a Claude 3 id |
| Dispatch.SelectBranch | lambda_function.py:344-399 | exactly one branch applies: Claude 3 text or multimodal by stored image; `stability…` prefix; the exact Titan id; otherwise generic |
| Dispatch.RequestFor | lambda_function.py:344-399 | only the generic branch predicts through LangChain, with `get_inference_parameters(model_id)` and the prompt; every request names the model id |
| Dispatch.Save | lambda_function.py:355-369 | the image is stored at `generated_images/image_<t>.png` in the bucket and the confirmation returned, unless `put_object` raises, which ends the request with that error |
| Dispatch.RunBranch | lambda_function.py:344-399 | image branches succeed exactly when the decoder produced an image, the library opens it and the store write succeeds; they then store one object at the generated key and return the fixed confirmation; an error string or None fails the save; Claude returns the content list; generic returns the predicted text |
| Dispatch.RunSelected | lambda_function.py:344-399 | once the image is looked up, a store write (or a store-write failure) happens exactly for `stability…` ids and the Titan id; the request names the model id; no head or download error arises here |
| Dispatch.GetTextResponse | lambda_function.py:309-399 | a non-404 head error, or a failed download of an existing image, aborts every model id; a store write, or a store-write failure, happens only for `stability…` ids and the Titan id, at `generated_images/image_<t>.png` |
| Dispatch.RequestByModelId | lambda_function.py:344-399 | the request sent for each kind of id; Claude 3 sends the multimodal body exactly when a non-empty image is stored |
| Dispatch.GenericPathProfile | lambda_function.py:390-391 | the generic path never receives the Stability or Titan-image profile |
| Dispatch.PrefixTestsDiffer | lambda_function.py:354 | `stabilityai.sdxl` takes the Stability branch although its provider maps to the generic profile |
| Dispatch.RunBranchIgnoresStoredImage | lambda_function.py:344-399 | no branch reads the stored image except through the request it sends |
| Dispatch.ConditioningOnlyForClaude | lambda_function.py:326-351 | the stored image changes the outcome only for the two Claude 3 ids |
| Handler.Inputs | lambda_function.py:21-28 | succeeds exactly when both `modelId` and `prompt` are present as text; the first entry of each wins; a missing `modelId` is reported first |
| Handler.UnrecognizedPathMessage | lambda_function.py:421 | the message is the fixed prefix, then the action group, then `::`, then the api path |
| Handler.UnrecognizedPathMessageInjective | lambda_function.py:421 | with a ':'-free action group, the message identifies the group and the path |
| Handler.Envelope | lambda_function.py:423-437 | messageVersion "1.0"; actionGroup, apiPath and httpMethod echoed; the result sits under `application/json` → `body` |
| Handler.LambdaHandler | lambda_function.py:413-438 | status 200 exactly for `/callModel`, where the dispatcher's result is the body; otherwise 404 with the unrecognised-path message, no dispatch and no store write; parameter failures surface first |
| Scenarios.HaikuWithoutImage | lambda_function.py:344-348 | Claude 3 Haiku with no stored image sends the text body and returns the content list in a 200 envelope |
| Scenarios.StabilityStoresOneImage | lambda_function.py:354-369 | a one-artifact Stability reply stores exactly one object, at the generated key, and returns the confirmation |
| Scenarios.StabilityEmptyArtifactsRaise | lambda_function.py:43-45 | an empty artifact list yields the no-image message, and the following save makes the request fail |
| Scenarios.TitanReportedErrorRaises | lambda_function.py:90-96 | a Titan reply with an `error` field and a decodable image makes the request fail as not saved, whether or not the image would open |
| Scenarios.StabilityPutFails | lambda_function.py:359-363 | a Stability image that cannot be written ends the request with the `put_object` error |
| Scenarios.DownloadFailureAbortsEveryId | lambda_function.py:326-335 | when the stored image exists but cannot be downloaded, every model id fails with that error |
| Scenarios.UnknownPathIs404 | lambda_function.py:417-421 | the api path `/other` of group `CallModels` gives 404 with `Unrecognized api path: CallModels::/other` and no put, whatever the world |

## Left out

- The first call of `get_text_response` (line 403) and its `ClientError` catch (405-406) are left out. The model has one dispatch, made only for `/callModel`, and its result feeds the envelope (line 418). In the source the first call runs for every api path, and it can store an image or raise before the path is examined.
- The S3 calls, the Bedrock `invoke_model` calls and LangChain's `Bedrock(...).predict` are network I/O. Their outcomes are inputs in `Dispatch.World`: the head outcome, the download and put error codes, the stored image and the model reply. A store write is recorded as `Storage.Put(bucket, key)`, not as bytes.
- Base64 encoding and decoding, PIL decoding, PNG re-encoding and `image.show()` are library calls. Two booleans stand for them: `World.base64Decodes` ("the returned image text decodes") and `World.imageOpens` ("the library opens the decoded bytes"). PNG re-encoding and `image.show()` are taken to succeed. The stored image is taken as base64 text.
- Floating-point values are kept as exact decimal literals (`JDecimal(digits, scale)`). No arithmetic is done on them.
- `time.time()` is the input `World.clock`, already truncated to a whole second.
- `print` and `logging`, including the token-usage printout, are side effects without effect on the result.
- The UI in `streamlit_app/app.py` calls the handler from outside and is left out.
- Event fields the handler indexes directly are always present in `Handler.Event`: `parameters`, `actionGroup`, `apiPath`, `httpMethod`, and each item's `name` and `value` (line 22). The `KeyError` raised when one is missing is not modelled.
- Replies.StabilityArtifact: when reading the reply raises, the message carries no text (`ProcessingError(None)`), because Python's exception wording is not modelled. A non-list `artifacts` value other than a string is treated as not subscriptable.
- Replies.TitanGenerate: a string `images` value (which Python would index character by character) is treated as unreadable, like every other non-list.
- Dispatch.RunBranch: for the generic branch the reply is taken to be LangChain's predicted text. LangChain's own provider-specific parsing of the response is not modelled.

=== FILE: assoc.dfy ===
/**
  Association lists: ordered sequences of (name, value) entries searched from
  the front. The event's `parameters` list of `{name, value}` records has this
  shape, and `get_named_parameter` is a search of it.
 */
module Assoc {
  import opened Results

  /** No two entries share a name; the event's parameter list need not satisfy this. */
  predicate DistinctNames<V>(entries: seq<(string, V)>)
  {
    forall i, j :: 0 <= i < j < |entries| ==> entries[i].0 != entries[j].0
  }

  /** Position of the first entry called `name`; `|entries|` when there is none. */
  function FirstIndex<V>(entries: seq<(string, V)>, name: string): (k: nat)
    ensures k <= |entries|
    ensures forall j :: 0 <= j < k ==> entries[j].0 != name
    ensures k < |entries| ==> entries[k].0 == name
  {
    if |entries| == 0 then 0
    else if entries[0].0 == name then 0
    else 1 + FirstIndex(entries[1..], name)
  }

  /** The value of the first entry called `name`, or None when no entry is. */
  function Find<V>(entries: seq<(string, V)>, name: string): (r: Option<V>)
    ensures r.None? <==> forall j :: 0 <= j < |entries| ==> entries[j].0 != name
    ensures r.Some? ==>
      exists k :: 0 <= k < |entries| && entries[k] == (name, r.value)
        && forall j :: 0 <= j < k ==> entries[j].0 != name
  {
    var k := FirstIndex(entries, name);
    if k < |entries| then Some(entries[k].1) else None
  }

  /** With distinct names, the lookup finds a value exactly when that entry is present. */
  lemma FindDistinct<V>(entries: seq<(string, V)>, name: string, v: V)
    requires DistinctNames(entries)
    ensures Find(entries, name) == Some(v) <==> (name, v) in entries
  {
    var k := FirstIndex(entries, name);
    if (name, v) in entries {
      var i :| 0 <= i < |entries| && entries[i] == (name, v);
      assert k <= i;
    }
  }

  /** An earlier entry with the same name hides every later one. */
  lemma {:induction false} FindShadows<V>(front: seq<(string, V)>, name: string, v: V, back: seq<(string, V)>)
    requires forall j :: 0 <= j < |front| ==> front[j].0 != name
    ensures Find(front + [(name, v)] + back, name) == Some(v)
  {
    var all := front + [(name, v)] + back;
    assert all[|front|] == (name, v);
    assert forall j :: 0 <= j < |front| ==> all[j] == front[j];
    var k := FirstIndex(all, name);
    assert k == |front|;
  }
}

=== FILE: dispatch.dfy ===
/**
  `get_text_response`: the existence check on the conditioning image, the
  choice of invocation shape from the model id, the request sent, and what
  the branch returns or stores. Remote calls, the clock and the image library
  are inputs gathered in a `World`.
 */
module Dispatch {
  import opened Results
  import opened JsonValues
  import Text
  import Storage
  import Profiles
  import Requests
  import Replies

  const ClaudeHaikuId := "anthropic.claude-3-haiku-20240307-v1:0"
  const ClaudeSonnetId := "anthropic.claude-3-sonnet-20240229-v1:0"
  const StabilityPrefix := "stability"
  const StabilitySaved := "Stability image created and saved successfully"
  const TitanSaved := "Amazon image created and saved successfully"

  predicate IsClaude3(modelId: string)
  {
    modelId == ClaudeHaikuId || modelId == ClaudeSonnetId
  }

  /** The fixed ids and the `stability` prefix never match the same model id. */
  lemma FixedIdsDisjoint()
    ensures !(StabilityPrefix <= ClaudeHaikuId) && !(StabilityPrefix <= ClaudeSonnetId)
    ensures !(StabilityPrefix <= Profiles.TitanImageId) && !IsClaude3(Profiles.TitanImageId)
  {
    assert ClaudeHaikuId[0] != StabilityPrefix[0];
    assert ClaudeSonnetId[0] != StabilityPrefix[0];
    assert Profiles.TitanImageId[0] != StabilityPrefix[0];
    assert Profiles.TitanImageId[1] != ClaudeHaikuId[1] && Profiles.TitanImageId[1] != ClaudeSonnetId[1];
  }

  /** The invocation shapes, in the order the source tests for them. */
  datatype Branch = ClaudeText | ClaudeMultimodal | StabilityImage | TitanImage | GenericText

  /**
    Lines 344-399. `conditioned` is true when a non-empty conditioning image was
    read. The tests run in order, but they never overlap: the contract states
    each branch's condition on its own.
   */
  function SelectBranch(modelId: string, conditioned: bool): (b: Branch)
    ensures b == ClaudeText <==> IsClaude3(modelId) && !conditioned
    ensures b == ClaudeMultimodal <==> IsClaude3(modelId) && conditioned
    ensures b == StabilityImage <==> StabilityPrefix <= modelId
    ensures b == TitanImage <==> modelId == Profiles.TitanImageId
    ensures b == GenericText <==>
      !IsClaude3(modelId) && !(StabilityPrefix <= modelId) && modelId != Profiles.TitanImageId
  {
    FixedIdsDisjoint();
    if IsClaude3(modelId) then (if !conditioned then ClaudeText else ClaudeMultimodal)
    else if StabilityPrefix <= modelId then StabilityImage
    else if modelId == Profiles.TitanImageId then TitanImage
    else GenericText
  }

  /** What the handler asks the inference service to do. */
  datatype Request =
    | Invoke(modelId: string, body: Json)
      /** LangChain `Bedrock(model_id=…, model_kwargs=kwargs).predict(prompt)`. */
    | Predict(modelId: string, kwargs: Json, prompt: string)

  /** The request each branch sends; `image` is the conditioning image as base64 text. */
  function RequestFor(b: Branch, modelId: string, prompt: string, image: string): (r: Request)
    ensures r.modelId == modelId
    ensures r.Predict? <==> b == GenericText
    ensures r.Predict? ==> r.kwargs == Profiles.InferenceParameters(modelId) && r.prompt == prompt
  {
    match b
    case ClaudeText => Invoke(modelId, Requests.ClaudeTextBody(prompt))
    case ClaudeMultimodal => Invoke(modelId, Requests.ClaudeMultimodalBody(prompt, image))
    case StabilityImage => Invoke(modelId, Requests.StabilityBody(prompt))
    case TitanImage => Invoke(modelId, Requests.TitanBody(prompt))
    case GenericText => Predict(modelId, Profiles.InferenceParameters(modelId), prompt)
  }

  /** Everything outside the handler's own logic that one request depends on. */
  datatype World = World(
    /** Outcome of `head_object` on the conditioning image. */
    head: Storage.HeadOutcome,
    /** None when `download_fileobj` succeeds; otherwise the code of the error it raises. */
    downloadError: Option<string>,
    /** The conditioning image as base64 text, used when the head succeeded. */
    storedImage: string,
    /** What the model call on the chosen branch returns (for the generic branch: the predicted text). */
    reply: Replies.Reply,
    /** Whether the returned image text decodes as base64. */
    base64Decodes: bool,
    /** Whether the imaging library can open the decoded bytes. */
    imageOpens: bool,
    /** None when `put_object` succeeds; otherwise the code of the error it raises. */
    putError: Option<string>,
    /** `int(time.time())` when an image is saved. */
    clock: nat)

  /** Why `get_text_response` raised instead of returning. */
  datatype Fault =
      /** `head_object` failed with a code other than "404"; re-raised (line 324). */
    | StoreFailure(code: string)
      /** `download_fileobj` of the existing conditioning image raised (line 329). */
    | DownloadFailure(code: string)
      /** `put_object` of a generated image raised (lines 363 and 380). */
    | PutFailure(code: string)
      /** The Claude call raised `ClientError`, re-raised by the wrapper; or LangChain's call failed. */
    | RemoteFailure(message: string)
      /** The reply lacks what the code indexes into (token usage, image list, predicted text). */
    | MalformedReply
      /** `save_image_to_s3` was handed an error string or None instead of an image. */
    | ImageNotSaved
      /** The imaging library could not open the decoded bytes (line 359 for Stability, 105 for Titan). */
    | ImageUnopenable

  /** What a completed call returned, what it sent, and the object it stored (if any). */
  datatype Dispatched = Dispatched(request: Request, result: Json, put: Option<Storage.Put>)

  /** The conditioning image text the branch sees: empty when none is stored. */
  function ConditioningImage(present: bool, w: World): string
  {
    if present then w.storedImage else ""
  }

  /**
    The save step of both image branches: the image is written under a fresh
    time-stamped key, and a failing `put_object` aborts the request.
   */
  function Save(request: Request, confirmation: string, w: World): (r: Result<Dispatched, Fault>)
    ensures r.Ok? <==> w.putError.None?
    ensures r.Ok? ==> r.value == Dispatched(request, JStr(confirmation),
                                            Some(Storage.Put(Storage.Bucket, Storage.GeneratedKey(w.clock))))
    ensures r.Err? ==> r.error == PutFailure(w.putError.value)
  {
    match w.putError
    case Some(code) => Err(PutFailure(code))
    case None => Ok(Dispatched(request, JStr(confirmation), Some(Storage.Put(Storage.Bucket, Storage.GeneratedKey(w.clock)))))
  }

  /**
    Runs the chosen branch on the world's reply: what the call returns, or the
    exception that escapes it. Image branches save under a fresh time-stamped
    key; when they received no image, the save itself raises.
   */
  function RunBranch(b: Branch, request: Request, w: World): (r: Result<Dispatched, Fault>)
    ensures r.Ok? ==> r.value.request == request
    ensures r.Ok? ==> (r.value.put.Some? <==> b == StabilityImage || b == TitanImage)
    ensures r.Ok? && r.value.put.Some? ==>
      r.value.put.value == Storage.Put(Storage.Bucket, Storage.GeneratedKey(w.clock)) && w.putError.None?
    ensures r.Err? && r.error.PutFailure? ==>
      (b == StabilityImage || b == TitanImage) && w.putError == Some(r.error.code)
    ensures b == StabilityImage ==>
      var o := Replies.StabilityArtifact(w.reply, w.base64Decodes);
      && (r.Ok? <==> o.ArtifactImage? && w.imageOpens && w.putError.None?)
      && (r.Ok? ==> r.value.result == JStr(StabilitySaved))
      && (!o.ArtifactImage? ==> r == Err(ImageNotSaved))
      && (o.ArtifactImage? && !w.imageOpens ==> r == Err(ImageUnopenable))
    ensures b == TitanImage ==>
      var o := Replies.TitanGenerate(w.reply, w.base64Decodes, w.imageOpens);
      && (r.Ok? <==> o.TitanPicture? && w.putError.None?)
      && (r.Ok? ==> r.value.result == JStr(TitanSaved))
      && (o.TitanClientError? || o.TitanImageError? ==> r == Err(ImageNotSaved))
      && (o.TitanUnopenable? ==> r == Err(ImageUnopenable))
      && (o.TitanUnreadable? ==> r == Err(MalformedReply))
    ensures b == ClaudeText || b == ClaudeMultimodal ==>
      (r.Ok? <==> Replies.ClaudeContent(w.reply).Content?)
      && (r.Ok? ==> r.value.result == Replies.ClaudeContent(w.reply).list)
      && (w.reply.ClientError? ==> r == Err(RemoteFailure(w.reply.message)))
    ensures b == GenericText ==>
      (r.Ok? <==> w.reply.Replied? && w.reply.payload.JStr?)
      && (r.Ok? ==> r.value.result == w.reply.payload)
  {
    match b
    case ClaudeText | ClaudeMultimodal =>
      (match Replies.ClaudeContent(w.reply)
       case Content(list) => Ok(Dispatched(request, list, None))
       case ClaudeRaised(message) => Err(RemoteFailure(message))
       case UsageMissing => Err(MalformedReply))
    case StabilityImage =>
      if !Replies.StabilityArtifact(w.reply, w.base64Decodes).ArtifactImage? then Err(ImageNotSaved)
      else if !w.imageOpens then Err(ImageUnopenable)
      else Save(request, StabilitySaved, w)
    case TitanImage =>
      (match Replies.TitanGenerate(w.reply, w.base64Decodes, w.imageOpens)
       case TitanPicture(_) => Save(request, TitanSaved, w)
       case TitanClientError(_) => Err(ImageNotSaved)
       case TitanImageError(_) => Err(ImageNotSaved)
       case TitanUnopenable => Err(ImageUnopenable)
       case TitanUnreadable => Err(MalformedReply))
    case GenericText =>
      (match w.reply
       case Replied(JStr(text)) => Ok(Dispatched(request, JStr(text), None))
       case Replied(_) => Err(MalformedReply)
       case ClientError(message) => Err(RemoteFailure(message)))
  }

  /** The branch a request takes, once the conditioning image has been looked up. */
  function BranchFor(modelId: string, present: bool, w: World): Branch
  {
    SelectBranch(modelId, ConditioningImage(present, w) != "")
  }

  /**
    Lines 344-399, once the conditioning image has been looked up: run the
    branch the id selects. Only the two image branches write to the store.
   */
  function RunSelected(modelId: string, prompt: string, present: bool, w: World): (r: Result<Dispatched, Fault>)
    ensures r.Ok? ==> r.value.request.modelId == modelId
    ensures r.Ok? ==> (r.value.put.Some? <==> StabilityPrefix <= modelId || modelId == Profiles.TitanImageId)
    ensures r.Ok? && r.value.put.Some? ==>
      r.value.put.value == Storage.Put(Storage.Bucket, Storage.GeneratedKey(w.clock))
    ensures r.Err? ==> !r.error.StoreFailure? && !r.error.DownloadFailure?
    ensures r.Err? && r.error.PutFailure? ==>
      (StabilityPrefix <= modelId || modelId == Profiles.TitanImageId) && w.putError == Some(r.error.code)
  {
    var b := BranchFor(modelId, present, w);
    RunBranch(b, RequestFor(b, modelId, prompt, ConditioningImage(present, w)), w)
  }

  /**
    Lines 309-399: check for the conditioning image and download it when it
    exists (every model id pays for this, and a store error other than "404"
    or a failed download aborts the request), then run the branch the id
    selects.
   */
  function GetTextResponse(modelId: string, prompt: string, w: World): (r: Result<Dispatched, Fault>)
    ensures r.Err? && r.error.StoreFailure? <==> Storage.ImagePresence(w.head).Err?
    ensures r.Err? && r.error.DownloadFailure? <==> w.head == Storage.HeadFound && w.downloadError.Some?
    ensures r.Err? && r.error.PutFailure? ==>
      (StabilityPrefix <= modelId || modelId == Profiles.TitanImageId) && w.putError == Some(r.error.code)
    ensures r.Ok? ==> r.value.request.modelId == modelId
    ensures r.Ok? ==> (r.value.put.Some? <==> StabilityPrefix <= modelId || modelId == Profiles.TitanImageId)
    ensures r.Ok? && r.value.put.Some? ==>
      r.value.put.value == Storage.Put(Storage.Bucket, Storage.GeneratedKey(w.clock))
  {
    match Storage.ImagePresence(w.head)
    case Err(code) => Err(StoreFailure(code))
    case Ok(present) =>
      if present && w.downloadError.Some? then Err(DownloadFailure(w.downloadError.value))
      else RunSelected(modelId, prompt, present, w)
  }

  /**
    The request each model id sends once the existence check has passed: the
    Claude 3 ids send the multimodal body exactly when a non-empty image is
    stored, `stability…` ids the diffusion body, the Titan id its image body,
    and every other id a LangChain prediction with its provider's profile.
   */
  lemma RequestByModelId(modelId: string, prompt: string, w: World)
    ensures var r := GetTextResponse(modelId, prompt, w);
      && (r.Ok? && IsClaude3(modelId) ==>
            r.value.request == Invoke(modelId,
              if w.head == Storage.HeadFound && w.storedImage != ""
              then Requests.ClaudeMultimodalBody(prompt, w.storedImage)
              else Requests.ClaudeTextBody(prompt)))
      && (r.Ok? && StabilityPrefix <= modelId ==>
            r.value.request == Invoke(modelId, Requests.StabilityBody(prompt))
            && r.value.result == JStr(StabilitySaved))
      && (r.Ok? && modelId == Profiles.TitanImageId ==>
            r.value.request == Invoke(modelId, Requests.TitanBody(prompt))
            && r.value.result == JStr(TitanSaved))
      && (r.Ok? && !IsClaude3(modelId) && !(StabilityPrefix <= modelId) && modelId != Profiles.TitanImageId ==>
            r.value.request == Predict(modelId, Profiles.InferenceParameters(modelId), prompt)
            && r.value.result == w.reply.payload)
  {
  }

  /**
    The generic path never receives the Stability or Titan-image profile:
    any id whose provider is `stability` already starts with `stability`,
    and the Titan id is caught by its own branch. Those two profiles are
    unreachable from the only caller of `get_inference_parameters`.
   */
  lemma GenericPathProfile(modelId: string, conditioned: bool)
    requires SelectBranch(modelId, conditioned) == GenericText
    ensures Profiles.FamilyOf(modelId) != Profiles.Stability
    ensures Profiles.FamilyOf(modelId) != Profiles.TitanImage
  {
  }

  /**
    The branch test (`startswith('stability')`) and the profile test (text
    before the first '.') disagree on ids such as `stabilityai.sdxl`: it takes
    the Stability image branch although its provider is `stabilityai`.
   */
  lemma PrefixTestsDiffer()
    ensures SelectBranch("stabilityai.sdxl", false) == StabilityImage
    ensures Text.ProviderOf("stabilityai.sdxl") == "stabilityai"
    ensures Profiles.InferenceParameters("stabilityai.sdxl") == Profiles.GenericProfile()
  {
    var id := "stabilityai.sdxl";
    assert SelectBranch(id, false) == StabilityImage by {
      assert id[..|StabilityPrefix|] == StabilityPrefix;
    }
    assert Text.ProviderOf(id) == "stabilityai" by {
      assert id == "stabilityai" + "." + "sdxl";
      Text.ProviderOfJoin("stabilityai", "sdxl");
    }
    assert id != Profiles.TitanImageId by {
      assert id[0] != Profiles.TitanImageId[0];
    }
  }

  /**
    The stored conditioning image only matters to the two Claude 3 ids: for
    every other id the outcome is the same whatever image is stored.
   */
  lemma ConditioningOnlyForClaude(modelId: string, prompt: string, w: World, other: string)
    requires !IsClaude3(modelId)
    ensures GetTextResponse(modelId, prompt, w) == GetTextResponse(modelId, prompt, w.(storedImage := other))
  {
    var w' := w.(storedImage := other);
    if Storage.ImagePresence(w.head).Ok? {
      var present := Storage.ImagePresence(w.head).value;
      var b := BranchFor(modelId, present, w);
      assert b == BranchFor(modelId, present, w');
      var request := RequestFor(b, modelId, prompt, ConditioningImage(present, w));
      assert request == RequestFor(b, modelId, prompt, ConditioningImage(present, w'));
      RunBranchIgnoresStoredImage(b, request, w, other);
    }
  }

  /** Running a branch never reads the stored image: only the request carries it. */
  lemma RunBranchIgnoresStoredImage(b: Branch, request: Request, w: World, other: string)
    ensures RunBranch(b, request, w) == RunBranch(b, request, w.(storedImage := other))
  {
  }
}

=== FILE: handler.dfy ===
/**
  `lambda_handler`: read the two named parameters, run the dispatcher for the
  one recognised api path, and wrap the result in the action-group response
  envelope.
 */
module Handler {
  import opened Results
  import opened JsonValues
  import Assoc
  import Storage
  import Dispatch

  const CallModelPath := "/callModel"
  const MessageVersion := "1.0"
  const ContentType := "application/json"
  const UnrecognizedPrefix := "Unrecognized api path: "

  /** The inbound event: `parameters` is the ordered list of `{name, value}` records. */
  datatype Event = Event(
    parameters: seq<(string, Json)>,
    actionGroup: string,
    apiPath: string,
    httpMethod: string)

  datatype ActionResponse = ActionResponse(
    actionGroup: string,
    apiPath: string,
    httpMethod: string,
    httpStatusCode: int,
    responseBody: Json)

  datatype ApiResponse = ApiResponse(messageVersion: string, response: ActionResponse)

  /** Why the handler raised instead of producing an envelope. */
  datatype Failure =
      /** `next(...)` found no parameter with this name (`StopIteration`). */
    | MissingParameter(name: string)
      /** The parameter's value is not a string, so printing `"…: " + value` raises. */
    | ParameterNotText(name: string)
    | DispatchFailed(fault: Dispatch.Fault)

  /** The envelope returned, and the image object stored on the way (if any). */
  datatype Handled = Handled(reply: ApiResponse, put: Option<Storage.Put>)

  /**
    Lines 24-28: `modelId` and `prompt` are looked up first (the first entry
    with each name wins), then both are printed, which needs them to be text.
   */
  function Inputs(event: Event): (r: Result<(string, string), Failure>)
    ensures r.Ok? <==>
      Assoc.Find(event.parameters, "modelId").Some? && Assoc.Find(event.parameters, "modelId").value.JStr?
      && Assoc.Find(event.parameters, "prompt").Some? && Assoc.Find(event.parameters, "prompt").value.JStr?
    ensures r.Ok? ==>
      Assoc.Find(event.parameters, "modelId") == Some(JStr(r.value.0))
      && Assoc.Find(event.parameters, "prompt") == Some(JStr(r.value.1))
    ensures Assoc.Find(event.parameters, "modelId").None? ==> r == Err(MissingParameter("modelId"))
  {
    match Assoc.Find(event.parameters, "modelId")
    case None => Err(MissingParameter("modelId"))
    case Some(modelId) =>
      match Assoc.Find(event.parameters, "prompt")
      case None => Err(MissingParameter("prompt"))
      case Some(prompt) =>
        if !modelId.JStr? then Err(ParameterNotText("modelId"))
        else if !prompt.JStr? then Err(ParameterNotText("prompt"))
        else Ok((modelId.s, prompt.s))
  }

  /** Line 421: the body of the 404 reply. */
  function UnrecognizedPathMessage(actionGroup: string, apiPath: string): (text: string)
    ensures |text| == |UnrecognizedPrefix| + |actionGroup| + 2 + |apiPath|
    ensures UnrecognizedPrefix <= text
    ensures text[|UnrecognizedPrefix|..|UnrecognizedPrefix| + |actionGroup|] == actionGroup
    ensures text[|UnrecognizedPrefix| + |actionGroup|..] == "::" + apiPath
  {
    UnrecognizedPrefix + actionGroup + "::" + apiPath
  }

  /** Where the action group and the first ':' of the separator sit in the 404 message. */
  lemma MessageLayout(actionGroup: string, apiPath: string)
    ensures var text := UnrecognizedPathMessage(actionGroup, apiPath);
      && (forall i :: 0 <= i < |actionGroup| ==> text[|UnrecognizedPrefix| + i] == actionGroup[i])
      && text[|UnrecognizedPrefix| + |actionGroup|] == ':'
  {
    var text := UnrecognizedPathMessage(actionGroup, apiPath);
    var n := |UnrecognizedPrefix|;
    forall i | 0 <= i < |actionGroup|
      ensures text[n + i] == actionGroup[i]
    {
      assert text[n..n + |actionGroup|][i] == actionGroup[i];
    }
    assert text[n + |actionGroup|..][0] == ':';
  }

  /**
    When the action group contains no ':', the 404 message names exactly one
    (action group, api path) pair.
   */
  lemma UnrecognizedPathMessageInjective(g1: string, p1: string, g2: string, p2: string)
    requires ':' !in g1 && ':' !in g2
    requires UnrecognizedPathMessage(g1, p1) == UnrecognizedPathMessage(g2, p2)
    ensures g1 == g2 && p1 == p2
  {
    var m := UnrecognizedPathMessage(g1, p1);
    var n := |UnrecognizedPrefix|;
    MessageLayout(g1, p1);
    MessageLayout(g2, p2);
    if |g1| < |g2| {
      assert false;
    } else if |g2| < |g1| {
      assert false;
    }
    assert g1 == m[n..n + |g1|] == g2;
    assert "::" + p1 == "::" + p2;
    assert p1 == ("::" + p1)[2..];
  }

  /** Lines 423-437: the reply envelope, echoing the request's routing fields. */
  function Envelope(event: Event, status: int, body: Json): (reply: ApiResponse)
    ensures reply.messageVersion == MessageVersion
    ensures reply.response.actionGroup == event.actionGroup
    ensures reply.response.apiPath == event.apiPath
    ensures reply.response.httpMethod == event.httpMethod
    ensures reply.response.httpStatusCode == status
    ensures At(reply.response.responseBody, [Key(ContentType), Key("body")]) == Some(body)
    ensures Keys(reply.response.responseBody) == {ContentType}
  {
    var wrapped := JObject(map["body" := body]);
    var responseBody := JObject(map[ContentType := wrapped]);
    assert At(wrapped, [Key("body")]) == Some(body);
    assert [Key(ContentType), Key("body")][1..] == [Key("body")];
    ApiResponse(MessageVersion, ActionResponse(
      event.actionGroup, event.apiPath, event.httpMethod, status, responseBody))
  }

  /**
    Lines 18-438, with one dispatch feeding the envelope. Status 200 exactly
    for the `/callModel` path, where the dispatcher's result becomes the body;
    any other path gets 404 and a message naming it, and never fails once the
    parameters are readable.
   */
  function LambdaHandler(event: Event, w: Dispatch.World): (r: Result<Handled, Failure>)
    ensures Inputs(event).Err? ==> r == Err(Inputs(event).error)
    ensures r.Ok? ==>
      && r.value.reply.messageVersion == MessageVersion
      && r.value.reply.response.actionGroup == event.actionGroup
      && r.value.reply.response.apiPath == event.apiPath
      && r.value.reply.response.httpMethod == event.httpMethod
    ensures r.Ok? ==> (r.value.reply.response.httpStatusCode == 200 <==> event.apiPath == CallModelPath)
    ensures r.Ok? ==> (r.value.reply.response.httpStatusCode == 404 <==> event.apiPath != CallModelPath)
    ensures Inputs(event).Ok? && event.apiPath != CallModelPath ==>
      && r.Ok? && r.value.put.None?
      && At(r.value.reply.response.responseBody, [Key(ContentType), Key("body")])
         == Some(JStr(UnrecognizedPathMessage(event.actionGroup, event.apiPath)))
    ensures Inputs(event).Ok? && event.apiPath == CallModelPath ==>
      var d := Dispatch.GetTextResponse(Inputs(event).value.0, Inputs(event).value.1, w);
      && (r.Ok? <==> d.Ok?)
      && (r.Ok? ==>
            r.value.put == d.value.put
            && At(r.value.reply.response.responseBody, [Key(ContentType), Key("body")]) == Some(d.value.result))
      && (d.Err? ==> r == Err(DispatchFailed(d.error)))
  {
    match Inputs(event)
    case Err(failure) => Err(failure)
    case Ok((modelId, prompt)) =>
      if event.apiPath == CallModelPath then
        match Dispatch.GetTextResponse(modelId, prompt, w)
        case Ok(d) => Ok(Handled(Envelope(event, 200, d.result), d.put))
        case Err(fault) => Err(DispatchFailed(fault))
      else
        Ok(Handled(Envelope(event, 404, JStr(UnrecognizedPathMessage(event.actionGroup, event.apiPath))), None))
  }
}

=== FILE: json.dfy ===
/**
  JSON-like values as the handler builds them (request bodies, parameter
  profiles, the reply envelope) and as `json.loads` hands them back (model
  replies). An object is a map from key to value; the order in which a Python
  dict lists its keys only affects serialisation, which is not modelled.
 */
module JsonValues {
  import opened Results

  datatype Json =
    | JNull
    | JBool(b: bool)
    | JInt(i: int)
      /** A decimal literal such as 0.5 or 8.0, kept exactly: digits * 10^-scale. */
    | JDecimal(digits: int, scale: nat)
    | JStr(s: string)
    | JArray(items: seq<Json>)
    | JObject(members: map<string, Json>)
      /** A Python type object (`int`, `float`) stored in a dict; not serialisable. */
    | JTypeName(name: string)

  /** One step of a path into a JSON value: an object key or an array index. */
  datatype Step = Key(name: string) | Index(i: nat)

  /** The value reached by following `path` from `j`, or None when a step is missing. */
  function At(j: Json, path: seq<Step>): Option<Json>
    decreases |path|
  {
    if |path| == 0 then Some(j)
    else match path[0]
      case Key(name) =>
        if j.JObject? && name in j.members then At(j.members[name], path[1..]) else None
      case Index(i) =>
        if j.JArray? && i < |j.items| then At(j.items[i], path[1..]) else None
  }

  /**
    Python's `d.get(key)` on an object's members: the value, or `null` when the
    key is absent (the two are indistinguishable to the caller).
   */
  function GetOrNull(members: map<string, Json>, key: string): (v: Json)
    ensures key in members ==> v == members[key]
    ensures key !in members ==> v == JNull
  {
    if key in members then members[key] else JNull
  }

  /** Python truthiness of a JSON value (`if not x:`). */
  predicate Truthy(j: Json)
  {
    match j
    case JNull => false
    case JBool(b) => b
    case JInt(i) => i != 0
    case JDecimal(d, _) => d != 0
    case JStr(s) => s != ""
    case JArray(items) => items != []
    case JObject(members) => members != map[]
    case JTypeName(_) => true
  }

  /** The keys of an object; empty for every other value. */
  function Keys(j: Json): set<string>
  {
    if j.JObject? then j.members.Keys else {}
  }
}

=== FILE: profiles.dfy ===
/**
  Default inference parameters per provider (`get_inference_parameters`).
  The provider is the text before the first '.' of the model id; seven fixed
  profiles exist and every other id silently gets the generic one.
 */
module Profiles {
  import opened Results
  import opened JsonValues
  import Text

  const TitanImageId := "amazon.titan-image-generator-v1"

  /** The providers with a profile of their own, in the order `get_inference_parameters` checks them. */
  const KnownProviders: seq<string> := ["mistral", "ai21", "cohere", "meta", "stability", "anthropic"]

  datatype Family = Mistral | Ai21 | Cohere | Meta | Stability | Anthropic | TitanImage | Generic

  /** The family for a provider name, given whether the whole id is the Titan image id. */
  function FamilyFor(provider: string, titanId: bool): (f: Family)
    ensures f == Generic <==> provider !in KnownProviders && !titanId
    ensures f == TitanImage <==> provider !in KnownProviders && titanId
    ensures f == Mistral <==> provider == "mistral"
    ensures f == Ai21 <==> provider == "ai21"
    ensures f == Cohere <==> provider == "cohere"
    ensures f == Meta <==> provider == "meta"
    ensures f == Stability <==> provider == "stability"
    ensures f == Anthropic <==> provider == "anthropic"
  {
    if provider == "mistral" then Mistral
    else if provider == "ai21" then Ai21
    else if provider == "cohere" then Cohere
    else if provider == "meta" then Meta
    else if provider == "stability" then Stability
    else if provider == "anthropic" then Anthropic
    else if titanId then TitanImage
    else Generic
  }

  /**
    Which profile a model id gets. The provider tests come first; the Titan
    image test compares the whole id. In the source that test reads the
    handler's own `model_id` rather than the function's argument; the only
    caller passes `model_id`, so one identifier stands for both here.
   */
  function FamilyOf(modelId: string): (f: Family)
    ensures f == Generic <==> Text.ProviderOf(modelId) !in KnownProviders && modelId != TitanImageId
    ensures f == TitanImage <==> modelId == TitanImageId
    ensures f == Mistral <==> Text.ProviderOf(modelId) == "mistral"
    ensures f == Ai21 <==> Text.ProviderOf(modelId) == "ai21"
    ensures f == Cohere <==> Text.ProviderOf(modelId) == "cohere"
    ensures f == Meta <==> Text.ProviderOf(modelId) == "meta"
    ensures f == Stability <==> Text.ProviderOf(modelId) == "stability"
    ensures f == Anthropic <==> Text.ProviderOf(modelId) == "anthropic"
  {
    AmProviderUnknown(TitanImageId);
    FamilyFor(Text.ProviderOf(modelId), modelId == TitanImageId)
  }

  /**
    No known provider starts with "am", so an id starting with "am" (the
    Titan image id among them) has a provider without a profile of its own.
   */
  lemma AmProviderUnknown(modelId: string)
    requires |modelId| >= 2 && modelId[0] == 'a' && modelId[1] == 'm'
    ensures Text.ProviderOf(modelId) !in KnownProviders
  {
    var p := Text.ProviderOf(modelId);
    assert |p| >= 2;
    StartsAmUnknown(p);
  }

  /** Every known provider name differs from "am" in one of its first two letters. */
  lemma StartsAmUnknown(p: string)
    requires |p| >= 2 && p[0] == 'a' && p[1] == 'm'
    ensures p !in KnownProviders
  {
  }

  function ZeroScale(): Json { JObject(map["scale" := JInt(0)]) }

  /** Lines 229-234. */
  function MistralProfile(): (params: Json)
    ensures Keys(params) == {"max_tokens", "temperature", "top_k", "top_p"}
    ensures At(params, [Key("max_tokens")]) == Some(JInt(200))
    ensures At(params, [Key("top_k")]) == Some(JInt(50))
    ensures params != GenericProfile()
  {
    JObject(map["max_tokens" := JInt(200), "temperature" := JDecimal(5, 1),
             "top_k" := JInt(50), "top_p" := JDecimal(9, 1)])
  }

  function Ai21Profile(): (params: Json)
    ensures Keys(params) == {"maxTokens", "temperature", "topP", "stopSequences",
                                 "countPenalty", "presencePenalty", "frequencyPenalty"}
    ensures At(params, [Key("maxTokens")]) == Some(JInt(512))
    ensures At(params, [Key("countPenalty"), Key("scale")]) == Some(JInt(0))
    ensures At(params, [Key("presencePenalty"), Key("scale")]) == Some(JInt(0))
    ensures At(params, [Key("frequencyPenalty"), Key("scale")]) == Some(JInt(0))
    ensures params != GenericProfile()
  {
    JObject(map["maxTokens" := JInt(512), "temperature" := JInt(0), "topP" := JDecimal(5, 1),
             "stopSequences" := JArray([]), "countPenalty" := ZeroScale(),
             "presencePenalty" := ZeroScale(), "frequencyPenalty" := ZeroScale()])
  }

  function CohereProfile(): (params: Json)
    ensures Keys(params) == {"max_tokens", "temperature", "p", "k", "stop_sequences", "return_likelihoods"}
    ensures At(params, [Key("max_tokens")]) == Some(JInt(512))
    ensures At(params, [Key("return_likelihoods")]) == Some(JStr("NONE"))
    ensures params != GenericProfile()
  {
    JObject(map["max_tokens" := JInt(512), "temperature" := JInt(0), "p" := JDecimal(1, 2),
             "k" := JInt(0), "stop_sequences" := JArray([]), "return_likelihoods" := JStr("NONE")])
  }

  function MetaProfile(): (params: Json)
    ensures Keys(params) == {"temperature", "top_p", "max_gen_len"}
    ensures At(params, [Key("temperature")]) == Some(JInt(0))
    ensures At(params, [Key("max_gen_len")]) == Some(JInt(512))
    ensures params != GenericProfile()
  {
    JObject(map["temperature" := JInt(0), "top_p" := JDecimal(9, 1), "max_gen_len" := JInt(512)])
  }

  function StabilityProfile(): (params: Json)
    ensures Keys(params) == {"weight", "cfg_scale", "seed", "steps", "width", "height"}
    ensures At(params, [Key("cfg_scale")]) == Some(JInt(10))
    ensures At(params, [Key("steps")]) == Some(JInt(50))
    ensures params != GenericProfile()
  {
    JObject(map["weight" := JInt(1), "cfg_scale" := JInt(10), "seed" := JInt(0),
             "steps" := JInt(50), "width" := JInt(512), "height" := JInt(512)])
  }

  function AnthropicProfile(): (params: Json)
    ensures Keys(params) == {"max_tokens_to_sample", "temperature", "top_k", "top_p",
                                 "stop_sequences", "anthropic_version"}
    ensures At(params, [Key("max_tokens_to_sample")]) == Some(JInt(300))
    ensures At(params, [Key("stop_sequences"), Index(0)]) == Some(JStr("\n\nHuman:"))
    ensures At(params, [Key("stop_sequences"), Index(1)]) == None
    ensures params != GenericProfile()
  {
    JObject(map["max_tokens_to_sample" := JInt(300), "temperature" := JDecimal(5, 1),
             "top_k" := JInt(250), "top_p" := JInt(1),
             "stop_sequences" := JArray([JStr("\n\nHuman:")]),
             "anthropic_version" := JStr("bedrock-2023-05-31")])
  }

  /** The `imageGenerationConfig` part of the Titan template (lines 291-297): every setting is a type object. */
  function TitanGenerationConfig(): (config: Json)
    ensures Keys(config) == {"numberOfImages", "height", "width", "cfgScale", "seed"}
    ensures At(config, [Key("cfgScale")]) == Some(JTypeName("float"))
    ensures At(config, [Key("numberOfImages")]) == Some(JTypeName("int"))
    ensures At(config, [Key("height")]) == Some(JTypeName("int"))
    ensures At(config, [Key("width")]) == Some(JTypeName("int"))
    ensures At(config, [Key("seed")]) == Some(JTypeName("int"))
  {
    JObject(map[
      "numberOfImages" := JTypeName("int"), "height" := JTypeName("int"),
      "width" := JTypeName("int"), "cfgScale" := JTypeName("float"),
      "seed" := JTypeName("int")])
  }

  /**
    A request template rather than defaults: its leaves are placeholder
    strings and Python type objects, which `json.dumps` cannot serialise.
   */
  function TitanImageProfile(): (params: Json)
    ensures Keys(params) == {"taskType", "textToImageParams", "imageGenerationConfig"}
    ensures At(params, [Key("taskType")]) == Some(JStr("TEXT_IMAGE"))
    ensures At(params, [Key("textToImageParams"), Key("text")]) == Some(JStr("string"))
    ensures At(params, [Key("textToImageParams"), Key("negativeText")]) == Some(JStr("string"))
    ensures At(params, [Key("imageGenerationConfig")]) == Some(TitanGenerationConfig())
    ensures params != GenericProfile()
  {
    JObject(map[
      "taskType" := JStr("TEXT_IMAGE"),
      "textToImageParams" := JObject(map["text" := JStr("string"), "negativeText" := JStr("string")]),
      "imageGenerationConfig" := TitanGenerationConfig()])
  }

  /** The fallback for every unrecognised id (Amazon Titan text models in practice). */
  function GenericProfile(): (params: Json)
    ensures Keys(params) == {"maxTokenCount", "stopSequences", "temperature", "topP"}
    ensures At(params, [Key("maxTokenCount")]) == Some(JInt(512))
    ensures At(params, [Key("stopSequences")]) == Some(JArray([]))
    ensures At(params, [Key("temperature")]) == Some(JInt(0))
    ensures At(params, [Key("topP")]) == Some(JDecimal(9, 1))
  {
    JObject(map["maxTokenCount" := JInt(512), "stopSequences" := JArray([]),
             "temperature" := JInt(0), "topP" := JDecimal(9, 1)])
  }

  /** The fixed parameter map of each family. */
  function Profile(f: Family): Json
  {
    match f
    case Mistral => MistralProfile()
    case Ai21 => Ai21Profile()
    case Cohere => CohereProfile()
    case Meta => MetaProfile()
    case Stability => StabilityProfile()
    case Anthropic => AnthropicProfile()
    case TitanImage => TitanImageProfile()
    case Generic => GenericProfile()
  }

  /**
    `get_inference_parameters(model_id)` (lines 223-307): the Titan image id
    gets its template, and exactly the ids no test recognises get the generic
    profile; no id is rejected. `ProfileKeysByProvider` states what each known
    provider receives.
   */
  function InferenceParameters(modelId: string): (params: Json)
    ensures modelId == TitanImageId ==> params == TitanImageProfile()
    ensures params == GenericProfile() <==> Text.ProviderOf(modelId) !in KnownProviders && modelId != TitanImageId
  {
    Profile(FamilyOf(modelId))
  }

  /**
    The key set an id's parameters carry is decided by the text before its
    first '.'; the Titan image id gets the Titan template and every other id
    the generic text profile, without any error.
   */
  lemma ProfileKeysByProvider(modelId: string)
    ensures var keys := Keys(InferenceParameters(modelId));
      var provider := Text.ProviderOf(modelId);
      && (provider == "mistral" ==> keys == {"max_tokens", "temperature", "top_k", "top_p"})
      && (provider == "ai21" ==> keys == {"maxTokens", "temperature", "topP", "stopSequences",
                                          "countPenalty", "presencePenalty", "frequencyPenalty"})
      && (provider == "cohere" ==> keys == {"max_tokens", "temperature", "p", "k",
                                            "stop_sequences", "return_likelihoods"})
      && (provider == "meta" ==> keys == {"temperature", "top_p", "max_gen_len"})
      && (provider == "stability" ==> keys == {"weight", "cfg_scale", "seed", "steps", "width", "height"})
      && (provider == "anthropic" ==> keys == {"max_tokens_to_sample", "temperature", "top_k", "top_p",
                                               "stop_sequences", "anthropic_version"})
      && (modelId == TitanImageId ==> keys == {"taskType", "textToImageParams", "imageGenerationConfig"})
      && (provider !in KnownProviders && modelId != TitanImageId ==>
            keys == {"maxTokenCount", "stopSequences", "temperature", "topP"})
  {
  }

  /** Two ids with the same provider get the same profile, whatever follows the first '.'. */
  lemma ProviderDecidesProfile(m1: string, m2: string)
    requires Text.ProviderOf(m1) == Text.ProviderOf(m2)
    requires m1 != TitanImageId && m2 != TitanImageId
    ensures InferenceParameters(m1) == InferenceParameters(m2)
  {
  }

  /** Only the one Titan image id takes the Titan branch; every other `amazon.` id is generic. */
  lemma AmazonIdsAreGeneric(rest: string)
    ensures FamilyOf("amazon." + rest) == (if "amazon." + rest == TitanImageId then TitanImage else Generic)
  {
    assert "amazon." + rest == "amazon" + "." + rest;
    Text.ProviderOfJoin("amazon", rest);
  }
}

=== FILE: replies.dfy ===
/**
  How the handler reads what a model call returned. The remote call itself is
  an input (`Reply`); these functions follow the source's checks on the parsed
  body, including which Python exceptions its shape can raise.
 */
module Replies {
  import opened Results
  import opened JsonValues

  /** What one `invoke_model` call produced: its parsed JSON body, or a raised `ClientError`. */
  datatype Reply = Replied(payload: Json) | ClientError(message: string)

  /** Whether `s` occurs in `t` (Python's `s in t` on strings). */
  predicate Contains(t: string, s: string)
    decreases |t|
  {
    |s| <= |t| && (t[..|s|] == s || Contains(t[1..], s))
  }

  // ---------------------------------------------------------------- Claude 3

  /** The reply of a Claude 3 call: its content list, or how reading it failed. */
  datatype ClaudeOutcome =
    | Content(list: Json)
      /** The call raised `ClientError`; the wrapper logs it and re-raises. */
    | ClaudeRaised(message: string)
      /** `result["usage"]["input_tokens"]` or `["output_tokens"]` raised. */
    | UsageMissing

  /** `result["usage"]["input_tokens"]` and `["output_tokens"]` can both be read. */
  predicate HasUsage(payload: Json)
  {
    && payload.JObject?
    && "usage" in payload.members
    && payload.members["usage"].JObject?
    && "input_tokens" in payload.members["usage"].members
    && "output_tokens" in payload.members["usage"].members
  }

  /**
    Lines 153-163 and 201-211: the token counts must be present (they are only
    printed), and the result is `result.get("content", [])`.
   */
  function ClaudeContent(reply: Reply): (o: ClaudeOutcome)
    ensures o.Content? <==> reply.Replied? && HasUsage(reply.payload)
    ensures o.ClaudeRaised? <==> reply.ClientError?
    ensures o.ClaudeRaised? ==> o.message == reply.message
    ensures o.Content? && "content" in reply.payload.members ==> o.list == reply.payload.members["content"]
    ensures o.Content? && "content" !in reply.payload.members ==> o.list == JArray([])
  {
    match reply
    case ClientError(message) => ClaudeRaised(message)
    case Replied(payload) =>
      if HasUsage(payload) then
        Content(if "content" in payload.members then payload.members["content"] else JArray([]))
      else UsageMissing
  }

  // ---------------------------------------------------------------- Stability

  const NoImageMessage := "No image data found in the response."
  const ProcessingErrorPrefix := "An error occurred processing the image response:  "

  /** What `get_image_response` makes of a Stability reply. */
  datatype StabilityOutcome =
      /** The first artifact's `base64` text, which decodes as base64. */
    | ArtifactImage(base64: string)
      /** The artifact check at line 43 failed. */
    | NoImageData
      /**
        An exception inside the `try` (lines 37-54): the call's own error
        message when `invoke_model` raised, None when reading the body raised
        (the Python exception text is not modelled).
       */
    | ProcessingError(message: Option<string>)

  /**
    `'base64' not in images[0]` for the first artifact `first`: key membership
    for an object, substring or element membership for a string or a list;
    None where Python's `in` raises `TypeError` (numbers, booleans, null).
   */
  function LacksBase64(first: Json): Option<bool>
  {
    match first
    case JObject(members) => Some("base64" !in members)
    case JStr(t) => Some(!Contains(t, "base64"))
    case JArray(items) => Some(JStr("base64") !in items)
    case _ => None
  }

  /**
    The artifact check: the list is missing or empty, or its first element has
    no `base64` entry. `images[0]` raises on an object (its keys are strings),
    and on a number or boolean; on a non-empty string it is the first character.
   */
  function FirstArtifact(images: Json): Option<Json>
  {
    match images
    case JArray(items) => if |items| > 0 then Some(items[0]) else None
    case JStr(t) => if |t| > 0 then Some(JStr([t[0]])) else None
    case _ => None
  }

  /**
    The `base64` text of the first artifact when the reply has the documented
    shape `{"artifacts": [{"base64": "..."}, ...]}`.
   */
  function DocumentedArtifact(reply: Reply): Option<string>
  {
    if reply.Replied? && reply.payload.JObject? && "artifacts" in reply.payload.members then
      var images := reply.payload.members["artifacts"];
      if images.JArray? && |images.items| > 0 && images.items[0].JObject?
         && "base64" in images.items[0].members && images.items[0].members["base64"].JStr?
      then Some(images.items[0].members["base64"].s)
      else None
    else None
  }

  /**
    Lines 37-54. `decodes` says whether the `base64` text decodes as base64
    (line 47); the bytes are only opened as an image later, by the save step.
   */
  function StabilityArtifact(reply: Reply, decodes: bool): (o: StabilityOutcome)
    ensures reply.ClientError? ==> o == ProcessingError(Some(reply.message))
    ensures o.ArtifactImage? ==> decodes && DocumentedArtifact(reply) == Some(o.base64)
    ensures decodes && DocumentedArtifact(reply).Some? ==> o == ArtifactImage(DocumentedArtifact(reply).value)
    ensures reply.Replied? && reply.payload.JObject? ==>
      var images := GetOrNull(reply.payload.members, "artifacts");
      && (images == JNull || images == JArray([]) ==> o == NoImageData)
      && ((images.JArray? && |images.items| > 0 && images.items[0].JObject?
           && "base64" !in images.items[0].members) ==> o == NoImageData)
  {
    match reply
    case ClientError(message) => ProcessingError(Some(message))
    case Replied(payload) =>
      if !payload.JObject? then ProcessingError(None)
      else
        var images := GetOrNull(payload.members, "artifacts");
        if !Truthy(images) then NoImageData
        else match FirstArtifact(images)
          case None => ProcessingError(None)
          case Some(first) =>
            match LacksBase64(first)
            case None => ProcessingError(None)
            case Some(true) => NoImageData
            case Some(false) =>
              if first.JObject? && first.members["base64"].JStr? && decodes
              then ArtifactImage(first.members["base64"].s)
              else ProcessingError(None)
  }

  /** The string `get_image_response` returns in place of an image. */
  function StabilityMessage(o: StabilityOutcome): (text: string)
    requires !o.ArtifactImage?
    ensures o == NoImageData <==> text == NoImageMessage
  {
    match o
    case NoImageData => NoImageMessage
    case ProcessingError(Some(message)) => ProcessingErrorPrefix + message
    case ProcessingError(None) => ProcessingErrorPrefix
  }

  // ---------------------------------------------------------------- Titan image

  /** What `generate_image` and its caller (lines 71-117) make of a Titan reply. */
  datatype TitanOutcome =
    | TitanPicture(base64: string)
      /** `ClientError`, caught and logged at line 110; the caller gets None. */
    | TitanClientError(message: string)
      /** A non-null `error` field: `ImageError`, caught and logged at line 115; the caller gets None. */
    | TitanImageError(reason: Json)
      /** `images[0]`, its ASCII encoding or its base64 decoding raised; nothing catches it. */
    | TitanUnreadable
      /** The decoded bytes are not an image the library opens (line 105); nothing catches it. */
    | TitanUnopenable

  /** `response_body.get("images")[0]` when it is a string, i.e. the reply lists at least one image. */
  function FirstImage(reply: Reply): Option<string>
  {
    if reply.Replied? && reply.payload.JObject? then
      var images := GetOrNull(reply.payload.members, "images");
      if images.JArray? && |images.items| > 0 && images.items[0].JStr? then Some(images.items[0].s) else None
    else None
  }

  /** `response_body.get("error")`: null when the field is absent or null. */
  function ReportedError(reply: Reply): Json
  {
    if reply.Replied? && reply.payload.JObject? then GetOrNull(reply.payload.members, "error") else JNull
  }

  /**
    Lines 86-117. `decodes` says whether the first image's text is ASCII and
    decodes as base64 (lines 91-92); `opens` whether the imaging library can
    open the decoded bytes (line 105). The image is decoded before the `error`
    field is looked at, but only opened after it, so a reported error needs
    the decoding step and not the opening one.
   */
  function TitanGenerate(reply: Reply, decodes: bool, opens: bool): (o: TitanOutcome)
    ensures reply.ClientError? <==> o.TitanClientError?
    ensures o.TitanUnreadable? <==> reply.Replied? && (FirstImage(reply).None? || !decodes)
    ensures o.TitanImageError? <==> decodes && FirstImage(reply).Some? && ReportedError(reply) != JNull
    ensures o.TitanImageError? ==> o.reason == ReportedError(reply)
    ensures o.TitanUnopenable? <==> decodes && !opens && FirstImage(reply).Some? && ReportedError(reply) == JNull
    ensures o.TitanPicture? ==> decodes && opens && FirstImage(reply) == Some(o.base64) && ReportedError(reply) == JNull
    ensures decodes && opens && FirstImage(reply).Some? && ReportedError(reply) == JNull
            ==> o == TitanPicture(FirstImage(reply).value)
  {
    match reply
    case ClientError(message) => TitanClientError(message)
    case Replied(payload) =>
      if !payload.JObject? then TitanUnreadable
      else
        var images := GetOrNull(payload.members, "images");
        if images.JArray? && |images.items| > 0 && images.items[0].JStr? && decodes then
          var error := GetOrNull(payload.members, "error");
          if error != JNull then TitanImageError(error)
          else if !opens then TitanUnopenable
          else TitanPicture(images.items[0].s)
        else TitanUnreadable
  }
}

=== FILE: requests.dfy ===
/**
  The fixed request bodies the handler sends to the inference service, one per
  invocation shape. Every body carries the prompt verbatim at one place and
  otherwise only constants.
 */
module Requests {
  import opened Results
  import opened JsonValues

  const AnthropicVersion := "bedrock-2023-05-31"

  /** Stability diffusion request (lines 33-36): one text prompt, guidance 9, 50 steps. */
  function StabilityBody(prompt: string): (body: Json)
    ensures Keys(body) == {"text_prompts", "cfg_scale", "steps"}
    ensures At(body, [Key("text_prompts"), Index(0), Key("text")]) == Some(JStr(prompt))
    ensures At(body, [Key("text_prompts"), Index(1)]) == None
    ensures At(body, [Key("cfg_scale")]) == Some(JInt(9))
    ensures At(body, [Key("steps")]) == Some(JInt(50))
  {
    JObject(map[
      "text_prompts" := JArray([JObject(map["text" := JStr(prompt)])]),
      "cfg_scale" := JInt(9),
      "steps" := JInt(50)])
  }

  /** Titan image request (lines 57-69): text-to-image, two 1024x1024 images, guidance 8.0, seed 0. */
  function TitanBody(prompt: string): (body: Json)
    ensures Keys(body) == {"taskType", "textToImageParams", "imageGenerationConfig"}
    ensures At(body, [Key("taskType")]) == Some(JStr("TEXT_IMAGE"))
    ensures At(body, [Key("textToImageParams"), Key("text")]) == Some(JStr(prompt))
    ensures At(body, [Key("imageGenerationConfig"), Key("numberOfImages")]) == Some(JInt(2))
    ensures At(body, [Key("imageGenerationConfig"), Key("height")]) == Some(JInt(1024))
    ensures At(body, [Key("imageGenerationConfig"), Key("width")]) == Some(JInt(1024))
    ensures At(body, [Key("imageGenerationConfig"), Key("cfgScale")]) == Some(JDecimal(80, 1))
    ensures At(body, [Key("imageGenerationConfig"), Key("seed")]) == Some(JInt(0))
  {
    JObject(map[
      "taskType" := JStr("TEXT_IMAGE"),
      "textToImageParams" := JObject(map["text" := JStr(prompt)]),
      "imageGenerationConfig" := JObject(map[
        "numberOfImages" := JInt(2),
        "height" := JInt(1024),
        "width" := JInt(1024),
        "cfgScale" := JDecimal(80, 1),
        "seed" := JInt(0)])])
  }

  /** A single user message with the given content parts. */
  function UserMessage(content: seq<Json>): (message: Json)
    ensures At(message, [Key("role")]) == Some(JStr("user"))
    ensures At(message, [Key("content")]) == Some(JArray(content))
  {
    JObject(map["role" := JStr("user"), "content" := JArray(content)])
  }

  /** The text content part carrying the prompt (lines 146 and 182). */
  function TextPart(prompt: string): (part: Json)
    ensures Keys(part) == {"type", "text"}
    ensures At(part, [Key("type")]) == Some(JStr("text"))
    ensures At(part, [Key("text")]) == Some(JStr(prompt))
  {
    JObject(map["type" := JStr("text"), "text" := JStr(prompt)])
  }

  /** Claude 3 text request (lines 139-150): 1024 output tokens, one text part. */
  function ClaudeTextBody(prompt: string): (body: Json)
    ensures Keys(body) == {"anthropic_version", "max_tokens", "messages"}
    ensures At(body, [Key("anthropic_version")]) == Some(JStr(AnthropicVersion))
    ensures At(body, [Key("max_tokens")]) == Some(JInt(1024))
    ensures At(body, [Key("messages"), Index(0), Key("role")]) == Some(JStr("user"))
    ensures At(body, [Key("messages"), Index(0), Key("content"), Index(0)]) == Some(TextPart(prompt))
    ensures At(body, [Key("messages"), Index(0), Key("content"), Index(1)]) == None
    ensures At(body, [Key("messages"), Index(1)]) == None
  {
    JObject(map[
      "anthropic_version" := JStr(AnthropicVersion),
      "max_tokens" := JInt(1024),
      "messages" := JArray([UserMessage([TextPart(prompt)])])])
  }

  /** The image content part: the conditioning image as base64 PNG data (lines 183-190). */
  function ImagePart(imageBase64: string): (part: Json)
    ensures Keys(part) == {"type", "source"}
    ensures At(part, [Key("type")]) == Some(JStr("image"))
    ensures At(part, [Key("source"), Key("type")]) == Some(JStr("base64"))
    ensures At(part, [Key("source"), Key("media_type")]) == Some(JStr("image/png"))
    ensures At(part, [Key("source"), Key("data")]) == Some(JStr(imageBase64))
  {
    JObject(map[
      "type" := JStr("image"),
      "source" := JObject(map[
        "type" := JStr("base64"),
        "media_type" := JStr("image/png"),
        "data" := JStr(imageBase64)])])
  }

  /**
    Claude 3 multimodal request (lines 175-194): 2048 output tokens, the text
    part followed by the image part, and nothing else.
   */
  function ClaudeMultimodalBody(prompt: string, imageBase64: string): (body: Json)
    ensures Keys(body) == {"anthropic_version", "max_tokens", "messages"}
    ensures At(body, [Key("anthropic_version")]) == Some(JStr(AnthropicVersion))
    ensures At(body, [Key("max_tokens")]) == Some(JInt(2048))
    ensures At(body, [Key("messages"), Index(0), Key("role")]) == Some(JStr("user"))
    ensures At(body, [Key("messages"), Index(1)]) == None
    ensures At(body, [Key("messages"), Index(0), Key("content"), Index(0)]) == Some(TextPart(prompt))
    ensures At(body, [Key("messages"), Index(0), Key("content"), Index(1)]) == Some(ImagePart(imageBase64))
    ensures At(body, [Key("messages"), Index(0), Key("content"), Index(2)]) == None
  {
    JObject(map[
      "anthropic_version" := JStr(AnthropicVersion),
      "max_tokens" := JInt(2048),
      "messages" := JArray([UserMessage([TextPart(prompt), ImagePart(imageBase64)])])])
  }
}

=== FILE: results.dfy ===
/** Optional values and outcomes that can fail, shared by every module. */
module Results {

  /** A value that may be missing, as Python's `None` or an absent key. */
  datatype Option<+T> = None | Some(value: T)

  /** The outcome of an operation that either yields a value or fails with an error. */
  datatype Result<+T, +E> = Ok(value: T) | Err(error: E)
}

=== FILE: scenarios.dfy ===
/** Whole-request examples: one event and one world each, traced through the handler. */
module Scenarios {
  import opened Results
  import opened JsonValues
  import Assoc
  import Storage
  import Requests
  import Replies
  import Dispatch
  import Handler

  function CallEvent(modelId: string, prompt: string): Handler.Event
  {
    Handler.Event([("modelId", JStr(modelId)), ("prompt", JStr(prompt))], "CallModels", "/callModel", "POST")
  }

  function NoStoredImage(reply: Replies.Reply, clock: nat): Dispatch.World
  {
    Dispatch.World(Storage.HeadClientError("404"), None, "", reply, true, true, None, clock)
  }

  /**
    Claude 3 Haiku, "Hello", nothing stored: the text-only request is sent and
    the reply's content list comes back as the body of a 200 envelope.
   */
  lemma HaikuWithoutImage(content: Json)
    ensures var event := CallEvent(Dispatch.ClaudeHaikuId, "Hello");
      var usage := JObject(map["input_tokens" := JInt(12), "output_tokens" := JInt(40)]);
      var w := NoStoredImage(Replies.Replied(JObject(map["usage" := usage, "content" := content])), 0);
      && Dispatch.GetTextResponse(Dispatch.ClaudeHaikuId, "Hello", w)
         == Ok(Dispatch.Dispatched(
              Dispatch.Invoke(Dispatch.ClaudeHaikuId, Requests.ClaudeTextBody("Hello")), content, None))
      && Handler.LambdaHandler(event, w) == Ok(Handler.Handled(Handler.Envelope(event, 200, content), None))
  {
  }

  /**
    A Stability model returning one artifact: exactly one object is stored,
    under the time-stamped key, and the confirmation string is the body.
   */
  lemma StabilityStoresOneImage(clock: nat)
    ensures var event := CallEvent("stability.stable-diffusion-xl-v0", "a red fox");
      var artifact := JObject(map["base64" := JStr("iVBORw0KGgo=")]);
      var w := NoStoredImage(Replies.Replied(JObject(map["artifacts" := JArray([artifact])])), clock);
      Handler.LambdaHandler(event, w)
      == Ok(Handler.Handled(
           Handler.Envelope(event, 200, JStr(Dispatch.StabilitySaved)),
           Some(Storage.Put(Storage.Bucket, Storage.GeneratedKey(clock)))))
  {
  }

  /**
    A Stability reply with an empty artifact list: the decoder yields the
    "no image data" message, which is then handed to the save step as if it
    were an image, so the handler raises instead of replying.
   */
  lemma StabilityEmptyArtifactsRaise(clock: nat)
    ensures var event := CallEvent("stability.stable-diffusion-xl-v0", "a red fox");
      var reply := Replies.Replied(JObject(map["artifacts" := JArray([])]));
      && Replies.StabilityArtifact(reply, true) == Replies.NoImageData
      && Replies.StabilityMessage(Replies.NoImageData) == Replies.NoImageMessage
      && Handler.LambdaHandler(event, NoStoredImage(reply, clock))
         == Err(Handler.DispatchFailed(Dispatch.ImageNotSaved))
  {
  }

  /**
    A Titan reply that reports an error: `ImageError` is raised as soon as the
    image text has been decoded, whether or not the bytes are a real image; it
    is caught and logged, the save step then receives None, and the handler
    raises.
   */
  lemma TitanReportedErrorRaises(clock: nat, opens: bool)
    ensures var event := CallEvent("amazon.titan-image-generator-v1", "a lighthouse");
      var reply := Replies.Replied(JObject(map[
        "images" := JArray([JStr("AAAA")]),
        "error" := JStr("content filtered")]));
      Handler.LambdaHandler(event, NoStoredImage(reply, clock).(imageOpens := opens))
      == Err(Handler.DispatchFailed(Dispatch.ImageNotSaved))
  {
  }

  /** A Stability image that cannot be written to the bucket: the `put_object` error ends the request. */
  lemma StabilityPutFails(clock: nat, code: string)
    ensures var event := CallEvent("stability.stable-diffusion-xl-v0", "a red fox");
      var artifact := JObject(map["base64" := JStr("iVBORw0KGgo=")]);
      var w := NoStoredImage(Replies.Replied(JObject(map["artifacts" := JArray([artifact])])), clock);
      Handler.LambdaHandler(event, w.(putError := Some(code)))
      == Err(Handler.DispatchFailed(Dispatch.PutFailure(code)))
  {
  }

  /**
    The conditioning image exists but cannot be downloaded: every model id,
    even one that never uses the image, fails with the download error.
   */
  lemma DownloadFailureAbortsEveryId(modelId: string, prompt: string, w: Dispatch.World, code: string)
    ensures Handler.LambdaHandler(CallEvent(modelId, prompt),
                                  w.(head := Storage.HeadFound, downloadError := Some(code)))
            == Err(Handler.DispatchFailed(Dispatch.DownloadFailure(code)))
  {
    var event := CallEvent(modelId, prompt);
    assert Assoc.Find(event.parameters, "modelId") == Some(JStr(modelId));
    assert Assoc.Find(event.parameters[1..], "prompt") == Some(JStr(prompt));
    assert Handler.Inputs(event) == Ok((modelId, prompt));
  }

  /** The path `/other`: 404 with the message naming the group and path, nothing dispatched. */
  lemma UnknownPathIs404(w: Dispatch.World)
    ensures var event := Handler.Event(
        [("modelId", JStr("meta.llama2-70b-chat-v1")), ("prompt", JStr("hi"))], "CallModels", "/other", "GET");
      Handler.LambdaHandler(event, w)
      == Ok(Handler.Handled(
           Handler.Envelope(event, 404, JStr("Unrecognized api path: CallModels::/other")), None))
  {
    assert |"/other"| != |Handler.CallModelPath|;
    assert Handler.UnrecognizedPathMessage("CallModels", "/other") == "Unrecognized api path: CallModels::/other";
  }
}

=== FILE: storage.dfy ===
/**
  The shared image bucket as the handler sees it: the fixed conditioning-image
  location, the existence check on it, and the time-stamped keys under which
  generated images are written. The S3 calls themselves are inputs.
 */
module Storage {
  import opened Results
  import Text

  const Bucket := "bedrock-agent-images"
  const GeneratedPrefix := "generated_images/image_"
  const GeneratedSuffix := ".png"

  /** What `head_object` on the conditioning image did. */
  datatype HeadOutcome =
    | HeadFound
      /** A `ClientError` whose `Error.Code` is `code`. */
    | HeadClientError(code: string)

  /** One `put_object` the handler performed. */
  datatype Put = Put(bucket: string, key: string)

  /**
    Whether the conditioning image exists: Ok(true) when the head succeeded,
    Ok(false) only for error code "404", and the error code itself (the
    re-raised exception) for any other failure.
   */
  function ImagePresence(head: HeadOutcome): (r: Result<bool, string>)
    ensures r == Ok(true) <==> head == HeadFound
    ensures r == Ok(false) <==> head == HeadClientError("404")
    ensures r.Err? <==> head.HeadClientError? && head.code != "404"
    ensures r.Err? ==> r.error == head.code
  {
    match head
    case HeadFound => Ok(true)
    case HeadClientError(code) => if code == "404" then Ok(false) else Err(code)
  }

  /** `'generated_images/image_{}.png'.format(int(time.time()))`. */
  function GeneratedKey(clock: nat): (key: string)
    ensures GeneratedPrefix <= key
    ensures |key| > |GeneratedPrefix| + |GeneratedSuffix|
    ensures key[|key| - |GeneratedSuffix|..] == GeneratedSuffix
  {
    GeneratedPrefix + Text.Decimal(clock) + GeneratedSuffix
  }

  /** The timestamp a generated key was made from, or None for any other key. */
  function ParseGeneratedKey(key: string): (t: Option<nat>)
    ensures t.Some? ==> GeneratedPrefix <= key
  {
    var lo := |GeneratedPrefix|;
    var hi := |key| - |GeneratedSuffix|;
    if lo < hi && key[..lo] == GeneratedPrefix && key[hi..] == GeneratedSuffix
       && Text.AllDigits(key[lo..hi]) && (key[lo] != '0' || hi == lo + 1)
    then Some(Text.DigitsValue(key[lo..hi]))
    else None
  }

  /** Every generated key parses back to the timestamp it was made from. */
  lemma GeneratedKeyRoundTrip(clock: nat)
    ensures ParseGeneratedKey(GeneratedKey(clock)) == Some(clock)
  {
    var key := GeneratedKey(clock);
    var digits := Text.Decimal(clock);
    var lo := |GeneratedPrefix|;
    assert key[lo..|key| - |GeneratedSuffix|] == digits;
    assert key[..lo] == GeneratedPrefix;
    Text.DecimalRoundTrip(clock);
  }

  /** Two images saved at different whole seconds never share a key. */
  lemma GeneratedKeyInjective(c1: nat, c2: nat)
    ensures GeneratedKey(c1) == GeneratedKey(c2) <==> c1 == c2
  {
    GeneratedKeyRoundTrip(c1);
    GeneratedKeyRoundTrip(c2);
  }
}

=== FILE: text.dfy ===
/** String helpers: the provider prefix of a model id and decimal rendering of timestamps. */
module Text {

  /**
    `model.split('.')[0]`: the text before the first '.', or the whole id when
    it has no '.'. The three ensures together determine the result uniquely
    (see ProviderUnique).
   */
  function ProviderOf(modelId: string): (p: string)
    ensures p <= modelId
    ensures '.' !in p
    ensures |p| < |modelId| ==> modelId[|p|] == '.'
  {
    if |modelId| == 0 || modelId[0] == '.' then ""
    else [modelId[0]] + ProviderOf(modelId[1..])
  }

  /** Any dot-free prefix that ends the id or is followed by '.' is the provider. */
  lemma {:induction false} ProviderUnique(modelId: string, p: string)
    requires p <= modelId && '.' !in p
    requires |p| < |modelId| ==> modelId[|p|] == '.'
    ensures ProviderOf(modelId) == p
  {
    if |modelId| == 0 || modelId[0] == '.' {
    } else {
      assert p[1..] <= modelId[1..];
      ProviderUnique(modelId[1..], p[1..]);
      assert p == [modelId[0]] + p[1..];
    }
  }

  /** Joining a dot-free vendor name and any rest with '.' gives back that vendor. */
  lemma ProviderOfJoin(vendor: string, rest: string)
    requires '.' !in vendor
    ensures ProviderOf(vendor + "." + rest) == vendor
  {
    var id := vendor + "." + rest;
    assert vendor <= id;
    assert id[|vendor|] == '.';
    ProviderUnique(id, vendor);
  }

  /** A dot-free id is its own provider; an id with a dot has a strictly shorter one. */
  lemma ProviderWhole(modelId: string)
    ensures ProviderOf(modelId) == modelId <==> '.' !in modelId
  {
    if '.' !in modelId {
      ProviderUnique(modelId, modelId);
    }
  }

  /** The decimal digit character for `d`. */
  function DigitChar(d: nat): (c: char)
    requires d < 10
    ensures '0' <= c <= '9'
    ensures (c as int) - ('0' as int) == d
  {
    ((d + '0' as int) as char)
  }

  predicate IsDigit(c: char)
  {
    '0' <= c <= '9'
  }

  predicate AllDigits(s: string)
  {
    forall i :: 0 <= i < |s| ==> IsDigit(s[i])
  }

  /** `'{}'.format(n)` for a non-negative int: its decimal digits, without leading zeros. */
  function Decimal(n: nat): (s: string)
    ensures |s| >= 1 && AllDigits(s)
    ensures s[0] == '0' ==> n == 0
    decreases n
  {
    if n < 10 then [DigitChar(n)]
    else Decimal(n / 10) + [DigitChar(n % 10)]
  }

  /** The number a string of decimal digits denotes. */
  function DigitsValue(s: string): nat
    requires AllDigits(s)
    decreases |s|
  {
    if |s| == 0 then 0
    else 10 * DigitsValue(s[..|s| - 1]) + ((s[|s| - 1] as int) - ('0' as int))
  }

  /** Reading back the decimal rendering of `n` gives `n`. */
  lemma {:induction false} DecimalRoundTrip(n: nat)
    ensures DigitsValue(Decimal(n)) == n
    decreases n
  {
    var s := Decimal(n);
    if n >= 10 {
      DecimalRoundTrip(n / 10);
      assert s[..|s| - 1] == Decimal(n / 10);
    }
  }

  /** Distinct timestamps render to distinct digit strings. */
  lemma DecimalInjective(m: nat, n: nat)
    ensures Decimal(m) == Decimal(n) ==> m == n
  {
    DecimalRoundTrip(m);
    DecimalRoundTrip(n);
  }
}
